=== FILE: README.md ===
# Player: packet queue and playback pipeline in Dafny

This project models the native core of the Android video player Player:
- the bounded FIFO packet queue that links the demuxing thread to the decoding threads;
- the control logic of `player.cpp` around that queue:
  - stream selection;
  - codec bookkeeping;
  - the gated initialisation chain of `Player.play`;
  - packet routing and the drain/release rule in `produce`;
  - the consume loop with its classification of decode results.

Every FFmpeg, JNI and Android call is replaced by the value it returns, which the model takes as an input.

Modules:

- `Wrappers`: the `Option` type.
- `PacketQueue`: the queue as an immutable value, a sequence of opaque elements plus the `is_block` flag, with capacity `QUEUE_MAX_SIZE` = 50. The blocking wait at the top of `queue_in` and `queue_out` is an outcome, `PushBlocks` or `PopBlocks`. A call blocks exactly when its wait condition holds. Everything after the wait is modelled exactly:
  - a push that finds the queue full is dropped;
  - a pop from an empty queue yields `None`, which is NULL.

  The lemmas prove FIFO order, drop-on-full once blocking is off, and the capacity bound.
- `LinkedQueue`: the same queue as `queue.cpp` lays it out. It is a heap of malloc'd nodes, with `head`, `tail` and `size`. `Repr` is the list/size invariant. `Abs` maps a list to a `PacketQueue.Queue`. Each linked operation is proved to keep `Repr` and to do to the abstract queue exactly what `PacketQueue` says. The shared free loop of `queue_clear` and `queue_destroy` is a method with loop invariants.
- `Streams`: `find_stream_index` (first match) and the legacy loops of `playVideo` and `playAudio` (last match). Also `format_init`, `codec_init`, and the stage gating of `Java_com_johan_player_Player_play`.
- `Decode`: what one iteration of `consume` does with a popped packet, given the results of `avcodec_send_packet` and `avcodec_receive_frame`.
- `Pipeline`: the three threads as a state machine. One step of one thread is an `Action`, so an interleaving is a sequence of actions. A step returns `None` when its thread cannot move (blocked, sleeping in the drain poll, or ended). `Inv` is the pipeline invariant: for each stream, the packets its consumer has taken, followed by those still queued, are exactly the packets read for that stream, in read order. Every step keeps it, in every interleaving.

## Model

| member | source | states |
|---|---|---|
| PacketQueue.IsEmpty | app/src/main/cpp/queue.cpp:48-50 | queue_is_empty holds exactly when the queue holds no element; an empty queue is never full |
| PacketQueue.IsFull | app/src/main/cpp/queue.cpp:57-59 | queue_is_full implies the queue holds elements; on a queue within capacity it holds exactly when there is no room for one more element |
| PacketQueue.Init | app/src/main/cpp/queue.cpp:7-18 | a new queue is empty, not full, within capacity, and has blocking enabled |
| PacketQueue.In | app/src/main/cpp/queue.cpp:66-88 | blocks exactly when the queue is full and blocking is on; once past the wait, a queue below capacity gets the element appended at the tail with earlier elements unchanged, and a queue at capacity is left unchanged (the element is dropped); the flag and the capacity bound are kept |
| PacketQueue.Out | app/src/main/cpp/queue.cpp:95-115 | blocks exactly when the queue is empty and blocking is on; once past the wait, an empty queue yields NULL and is unchanged, and a non-empty one yields its head element and keeps exactly the rest |
| PacketQueue.Clear | app/src/main/cpp/queue.cpp:121-135 | the result is empty and has blocking re-enabled |
| PacketQueue.Destroy | app/src/main/cpp/queue.cpp:24-41 | the result is empty and has blocking disabled |
| PacketQueue.BreakBlock | app/src/main/cpp/queue.cpp:141-144 | blocking is off and the elements (hence the size) are unchanged |
| PacketQueue.EveryOperationKeepsCapacity | app/src/main/cpp/include/queue.h:12-96 | no declared operation takes a queue past the fixed capacity of 50 elements |
| PacketQueue.BreakBlockIdempotent | app/src/main/cpp/queue.cpp:141-144 | calling break_block twice has the same effect as calling it once |
| PacketQueue.UnblockedNeverBlocks | app/src/main/cpp/queue.cpp:66-103 | once blocking is off, neither queue_in nor queue_out can block, whatever the queue holds |
| PacketQueue.PushAllAppends | app/src/main/cpp/queue.cpp:75-87 | pushes that fit within the capacity never block and append their elements in order |
| PacketQueue.PopManyInOrder | app/src/main/cpp/queue.cpp:104-114 | popping as many times as there are elements returns them head first and leaves the queue empty with its flag unchanged |
| PacketQueue.FifoOrder | app/src/main/cpp/queue.cpp:66-115 | N pushes onto an empty queue followed by N pops return the elements in push order |
| PacketQueue.UnblockedPushKeepsPrefix | app/src/main/cpp/queue.cpp:68-74 | with blocking off, any sequence of pushes keeps the oldest elements up to the capacity and drops the rest |
| PacketQueue.PushPopThenUnblock | app/src/main/cpp/queue.cpp:66-144 | the intended use: three pushes and three pops return 1, 2, 3; after break_block, a pop on the empty queue returns NULL |
| LinkedQueue.Init | app/src/main/cpp/queue.cpp:7-11 | NULL head and tail with size 0 satisfy the list invariant and represent the empty blocking queue |
| LinkedQueue.SizeAgreesWithLinks | app/src/main/cpp/queue.cpp:48-59 | under the list invariant, `size == 0` iff `head` is NULL iff `tail` is NULL; queue_is_empty and queue_is_full on the counter agree with the abstract queue; the size is never negative, and it is at most 50 exactly when the abstract queue is within capacity |
| LinkedQueue.IsEmpty | app/src/main/cpp/queue.cpp:48-50 | on a well-formed list, the counter test holds exactly when no node is linked and `head` is NULL |
| LinkedQueue.IsFull | app/src/main/cpp/queue.cpp:57-59 | on a well-formed list, the counter test holds exactly when 50 nodes are linked |
| LinkedQueue.In | app/src/main/cpp/queue.cpp:66-70 | the linked push blocks exactly when the counter says full and blocking is on |
| LinkedQueue.Out | app/src/main/cpp/queue.cpp:95-99 | the linked pop blocks exactly when the counter says empty and blocking is on |
| LinkedQueue.BreakBlock | app/src/main/cpp/queue.cpp:141-144 | the nodes, head, tail and size are untouched and blocking is off |
| LinkedQueue.LinkAtTail | app/src/main/cpp/queue.cpp:81-85 | linking a fresh node after the tail of a non-empty list keeps the invariant and appends its element |
| LinkedQueue.InRefines | app/src/main/cpp/queue.cpp:75-87 | the linked queue_in keeps the list/size invariant and does to the abstract queue what PacketQueue.In does (append, or drop at capacity); a push never takes the counter past 50 |
| LinkedQueue.UnlinkHead | app/src/main/cpp/queue.cpp:104-111 | unlinking and freeing the head node keeps the invariant (tail reset when the list empties) and removes exactly the first element |
| LinkedQueue.UnlinkedNodes | app/src/main/cpp/queue.cpp:104-110 | after unlinking and freeing the head node, the live nodes are exactly the rest of the list, each listed once |
| LinkedQueue.UnlinkedKeepsLinks | app/src/main/cpp/queue.cpp:104-110 | unlinking the head leaves every remaining node, its next link and the final NULL intact, and makes the second node (or NULL) the new head |
| LinkedQueue.UnlinkedElems | app/src/main/cpp/queue.cpp:104-110 | the elements of the list after unlinking the head are the old elements without the first |
| LinkedQueue.OutRefines | app/src/main/cpp/queue.cpp:95-115 | the linked queue_out returns the same item as PacketQueue.Out, keeps the invariant, and leaves the abstract queue PacketQueue.Out leaves |
| LinkedQueue.BreakBlockRefines | app/src/main/cpp/queue.cpp:141-144 | the linked break_block keeps the invariant and matches PacketQueue.BreakBlock |
| LinkedQueue.FreeNodes | app/src/main/cpp/queue.cpp:24-30 | walking from head and freeing each node as it is left frees every live node; the addresses are freed in list order from head to tail, none twice |
| LinkedQueue.LiveAfterFree | app/src/main/cpp/queue.cpp:27-28 | freeing the node just left leaves exactly the nodes after it live |
| LinkedQueue.Clear | app/src/main/cpp/queue.cpp:121-135 | the result has no live nodes, NULL head and tail, size 0, and represents PacketQueue.Clear of the old queue |
| LinkedQueue.Destroy | app/src/main/cpp/queue.cpp:24-41 | the result has no live nodes, NULL head and tail, size 0, and represents PacketQueue.Destroy of the old queue |
| Streams.FindFrom | app/src/main/cpp/player.cpp:406-411 | the loop from index i returns the first matching index at or after i, or -1 exactly when none matches |
| Streams.FindStreamIndex | app/src/main/cpp/player.cpp:404-412 | -1 exactly when no stream has the type; otherwise the smallest index whose stream has the type |
| Streams.LegacyStreamIndex | app/src/main/cpp/player.cpp:62-68 | the non-breaking loop keeps the LAST matching index (or -1 when none); it is never smaller than find_stream_index's answer and equals it exactly when at most one stream has the type |
| Streams.LastIsFirstIffAtMostOne | app/src/main/cpp/player.cpp:215-221 | the last match of a type is the first match exactly when the type occurs at most once |
| Streams.FormatInit | app/src/main/cpp/player.cpp:381-396 | SUCCESS_CODE iff opening and reading stream info both succeed; otherwise the first negative code, unchanged |
| Streams.CodecInit | app/src/main/cpp/player.cpp:420-444 | FAIL_CODE iff no stream has the type or the codec fails to open, with the player unchanged; on success the first matching index and the context go into exactly the slot the type selects, the other slot untouched; other types succeed without recording |
| Streams.Play | app/src/main/cpp/player.cpp:692-710 | the stages that run are a prefix of format, video codec, audio codec, start; each runs iff every earlier one returned a positive code; when play_start runs, both indices are the first matches, both contexts are recorded, and the indices are distinct and non-negative |
| Decode.SinkFor | app/src/main/cpp/player.cpp:663-667 | a frame goes to video_play iff the consumer's index is the video index, else to audio_play iff it is the audio index, else nowhere |
| Decode.Handle | app/src/main/cpp/player.cpp:649-668 | a send result < 0 other than EAGAIN and EOF skips the packet; otherwise a receive result < 0 other than EOF skips it; otherwise the frame is rendered by the sink the index selects; each skip keeps its code |
| Decode.AgainAndEofAsymmetry | app/src/main/cpp/player.cpp:650-657 | EAGAIN is tolerated from send but skips the packet when receive returns it; EOF is tolerated at both steps |
| Pipeline.Route | app/src/main/cpp/player.cpp:594-600 | a read packet goes only to the video queue iff its stream is the video stream, else only to the audio queue iff it is the audio stream, else to no queue |
| Pipeline.QueueRole | app/src/main/cpp/player.cpp:634-642 | a consumer uses the video queue iff its index is the video index, else the audio queue iff it is the audio index |
| Pipeline.ProducerStep | app/src/main/cpp/player.cpp:591-613 | one produce step leaves both consumers untouched. At end of input it unblocks both queues and keeps their elements. A read blocks exactly when its routed queue is full and blocking; otherwise it advances to the next read and appends the packet to the routed queue (or drops it at capacity), leaving the other queue alone. While draining, it releases exactly when the drain condition holds, leaving both queues empty and unblocked. Once released, it never steps |
| Pipeline.AttachStep | app/src/main/cpp/player.cpp:626-631 | only an attaching consumer can attach; success sends it to its loop, failure ends the thread; nothing else changes |
| Pipeline.PopStep | app/src/main/cpp/player.cpp:634-648 | only a waiting consumer with a queue can pop. It blocks exactly when that queue is empty and blocking. NULL from an empty queue ends the loop and leaves the queue as it was. Otherwise it takes the head packet and the queue keeps exactly the rest. The producer, the other queue and the other consumer are untouched |
| Pipeline.ProcessStep | app/src/main/cpp/player.cpp:649-668 | only a consumer holding a packet can process it. It returns to `queue_out` and appends exactly one entry to its log: the held packet with the outcome Decode.Handle gives for the two decoder codes. The queues, the producer and the other consumer are untouched |
| Pipeline.Next | app/src/main/cpp/player.cpp:591-673 | the threads share only the queues: a produce step leaves both consumers unchanged, a consumer step leaves the producer and the other consumer unchanged, attach and decode steps leave both queues unchanged, and the release count never decreases |
| Pipeline.Start | app/src/main/cpp/player.cpp:679-685 | play_start creates two empty blocking queues and calls thread_init. The producer reads the session's demuxed packets from the start, with nothing released. The state holds the player's two stream indices. Each consumer starts attaching with an empty log and a copy of its stream's index (player.cpp:573-583) |
| Pipeline.StartEstablishesInv | app/src/main/cpp/player.cpp:573-583 | a session that Player.play starts, with thread_init giving each consumer its stream's index, satisfies the pipeline invariant |
| Pipeline.ReadKeepsConsumerInv | app/src/main/cpp/player.cpp:594-600 | reading one packet extends exactly the routed stream of the consumer it is queued for |
| Pipeline.ProducerStepKeepsInv | app/src/main/cpp/player.cpp:591-613 | every produce step keeps the pipeline invariant |
| Pipeline.AttachStepKeepsInv | app/src/main/cpp/player.cpp:626-631 | attaching a consumer thread, successfully or not, keeps the invariant |
| Pipeline.PopStepKeepsInv | app/src/main/cpp/player.cpp:644-648 | a consumer's queue_out keeps the invariant: the popped packet moves from the queue to the consumer |
| Pipeline.ProcessStepKeepsInv | app/src/main/cpp/player.cpp:649-668 | decoding, rendering or skipping, and freeing the held packet keeps the invariant |
| Pipeline.NextKeepsInv | app/src/main/cpp/player.cpp:591-673 | every step of every thread, in any interleaving and under either drain rule, keeps the invariant |
| Pipeline.ReleaseOnceAfterDrain | app/src/main/cpp/player.cpp:602-611 | player_release runs at most once, only from the drain loop, after both queues were unblocked and seen empty; once released, the producer stays released |
| Pipeline.ReadingNeverDrops | app/src/main/cpp/player.cpp:594-601 | while reading, a produce step that completes stores the packet at the tail of exactly the queue its stream selects and nothing else, so no packet is dropped |
| Pipeline.ConsumerExitsOnlyOnNull | app/src/main/cpp/player.cpp:644-648 | a consumer leaves its loop only on a NULL pop, which needs its queue empty and unblocked (so reading is over); a waiting consumer with packets queued takes the head one; after reading it never blocks |
| Pipeline.RoutedFacts | app/src/main/cpp/player.cpp:594-600 | the packets routed to one queue come from distinct reads, in increasing read order, each with its read's stream |
| Pipeline.NoPacketProcessedTwice | app/src/main/cpp/player.cpp:644-669 | each consumer finishes (and frees) packets in strictly increasing read order, so none twice, and no packet is finished by both consumers |
| Pipeline.ExitedConsumerFinishedItsStream | app/src/main/cpp/player.cpp:644-669 | a consumer that left its loop has finished exactly the packets read for its stream, in read order, and rendered every decoded one on its own sink |
| Pipeline.JoinedReleaseIsLast | app/src/main/cpp/player.cpp:602-611 | with release delayed until both consumer threads have ended, release is the last step of every interleaving |
| Pipeline.RaceReadsOnePacket | app/src/main/cpp/player.cpp:594-600 | the first steps of the release race: a video consumer attaches and one video packet is queued |
| Pipeline.RacePopsThenReleases | app/src/main/cpp/player.cpp:602-611 | the rest of the release race: the packet is popped, reading ends, and the drain rule as written releases |
| Pipeline.ReleaseWhileDecoding | app/src/main/cpp/player.cpp:602-611 | as written, produce can release the player while a consumer still holds a packet to decode and another has not attached; both can still step afterwards: the video consumer decodes the packet and then calls queue_out on the destroyed queue |
| Pipeline.RaceUsesDestroyedQueue | app/src/main/cpp/player.cpp:644-669 | after the release in the race, the video consumer decodes its packet, returns to its loop and calls queue_out on the destroyed video queue |

## Left out

- Threads and locking:
  - The pthread mutexes and condition variables are not modelled. Each step is atomic, and blocking is an outcome.
  - `break_block` does not take the mutex, and it wakes one waiter per condition with `pthread_cond_signal` (queue.cpp:143-144). This is not modelled: the model has no waiters, and once `is_block` is false every step that was blocked is enabled, as a broadcast would make it. Each condition has at most one waiter (the producer on a full queue, that queue's one consumer on an empty one), so signal and broadcast cannot be told apart here. A wakeup lost between a waiter's test and its wait is a property of the real scheduler, which the model does not have.
- The `sleep(1)` drain poll is a drain step that is disabled until its condition holds.
- Foreign calls are not modelled:
  - FFmpeg: `avformat_*`, `avcodec_*`, `av_read_frame`, `sws_*`, `swr_*`, `av_image_*`, allocation;
  - JNI and `ANativeWindow`;
  - AudioTrack.

  Their results are inputs: the demuxed stream sequence, the open, stream-info and codec-open codes, and the send/receive codes.
- `video_prepare`, `audio_prepare`, `video_play`, `audio_play` and `player_init` are foreign-call plumbing and are not modelled. The consume loop ignores the return codes of the prepare functions, and so does the model.
- Decode constants: `AVERROR(EAGAIN)` = -11 and `AVERROR_EOF` are FFmpeg's. FFmpeg's headers are not part of this model, so the two values are written out from FFmpeg's definitions.
- `player_release` is a release counter plus `queue_destroy` of both queues. Its other frees are foreign calls.
- A destroyed queue is modelled as empty and unblocked. In the source, using a queue after `queue_destroy` is undefined behaviour: its mutex and conditions are freed. The model shows that this can happen. In `Pipeline.ReleaseWhileDecoding`, the video consumer decodes after the release and then pops from the destroyed video queue.
- A consumer whose index matches neither stream would use an uninitialised queue pointer in the source. The model's `PopStep` treats it as unable to step. This cannot happen after `Player.play`, which gives the two consumers the two distinct indices.
- The bodies of `playVideo` and `playAudio` are not modelled beyond their stream-selection loops. The rest of each body is the same foreign-call pipeline run on one thread.
- `print_error` only logs, so it is not modelled.
- The commented-out producer/consumer test code at the end of `player.cpp` is not compiled, so it is not modelled.
- Memory ownership is not modelled:
  - packets on unmatched streams, which `produce` never frees;
  - the last packet allocated by `produce`;
  - the early returns without release.

  Freeing is recorded only for packets that pass through a consumer (`Processed` log entries).
- Integer widths: `size` and the stream indices are C `int`. They stay within 0..50 and within the stream count, so no wrap-around arises.
- `Player.java` and `MainActivity.java` are Android UI and AudioTrack wrappers, so they are not modelled.
- Behaviour is kept exactly as the code has it:
  - `EAGAIN` from `avcodec_send_packet` is tolerated (player.cpp:650), but from `avcodec_receive_frame` it skips the packet (player.cpp:657).
  - A packet on a stream that is neither the video nor the audio stream is routed to no queue and never gets a `Processed` entry (player.cpp:594-600).
  - `player_release` is not ordered after the consumers' exit (see Findings).
- LinkedQueue.FreeNodes: the free order is a ghost record kept alongside the loop. The contract does not tie each recorded address to the moment its node left the heap.

## Findings

| source | as written | input that shows it | evidently intended | confidence | as-written member | corrected member |
|---|---|---|---|---|---|---|
| app/src/main/cpp/player.cpp:602-611 | after the read loop, `produce` unblocks both queues, waits only until both are empty, then calls `player_release`; it never waits for the consumer threads | one video packet on stream 0 (audio stream 1): the video consumer pops it, reading ends, both queues are empty, and `player_release` closes the codec contexts and destroys the queues while the video consumer is about to decode the packet and the audio consumer has not yet attached | release only after both consumer threads have left their loops (join them), so no consumer touches a freed codec context or queue | medium; not executed | Pipeline.ReleaseWhileDecoding | Pipeline.JoinedReleaseIsLast |

In the model, the corrected rule is the `JoinConsumers` drain policy of `Pipeline.ProducerStep`. All pipeline lemmas (`NextKeepsInv`, `ReleaseOnceAfterDrain`, `NoPacketProcessedTwice`, `ExitedConsumerFinishedItsStream`) hold under both policies.

=== FILE: decode.dfy ===
/**
 What the consumer loop of player.cpp does with one packet it has popped,
 given the codes `avcodec_send_packet` and `avcodec_receive_frame` return.
 */
module Decode {
  import opened Wrappers

  /** EAGAIN on Linux and Android; FFmpeg's AVERROR(e) is -e. */
  const Eagain: int := 11
  const ErrorAgain: int := -Eagain

  /** AVERROR_EOF: the negated little-endian tag of the characters 'E', 'O', 'F', ' '. */
  const ErrorEof: int := -(0x45 + 0x4F * 0x100 + 0x46 * 0x1_0000 + 0x20 * 0x100_0000)

  /** The two render paths: video_play and audio_play. */
  datatype Sink = VideoSink | AudioSink

  /**
   The fate of one packet. A packet skipped at either decoding step carries
   the code that caused the skip; a decoded packet is handed to the sink the
   consumer's stream index selects (None when it matches neither stream).
   Whatever the outcome, the packet is freed.
   */
  datatype Outcome = SkippedAtSend(code: int) | SkippedAtReceive(code: int) | Played(sink: Option<Sink>)

  /** Send results that let the loop go on to receive: success, "try again" and end of stream. */
  predicate SendTolerated(code: int) {
    code >= 0 || code == ErrorAgain || code == ErrorEof
  }

  /** Receive results that let the loop go on to render: success and end of stream only. */
  predicate ReceiveTolerated(code: int) {
    code >= 0 || code == ErrorEof
  }

  /** The render path: video when the consumer's index is the video stream's, else audio when it is the audio stream's. */
  function SinkFor(index: int, videoIndex: int, audioIndex: int): (r: Option<Sink>)
    ensures r == Some(VideoSink) <==> index == videoIndex
    ensures r == Some(AudioSink) <==> index != videoIndex && index == audioIndex
    ensures r == None <==> index != videoIndex && index != audioIndex
  {
    if index == videoIndex then Some(VideoSink)
    else if index == audioIndex then Some(AudioSink)
    else None
  }

  /** One iteration of the consume loop after a successful pop. */
  function Handle(sendResult: int, receiveResult: int, index: int, videoIndex: int, audioIndex: int): (r: Outcome)
    ensures r.SkippedAtSend? <==> !SendTolerated(sendResult)
    ensures r.SkippedAtSend? ==> r.code == sendResult
    ensures r.SkippedAtReceive? <==> SendTolerated(sendResult) && !ReceiveTolerated(receiveResult)
    ensures r.SkippedAtReceive? ==> r.code == receiveResult
    ensures r.Played? <==> SendTolerated(sendResult) && ReceiveTolerated(receiveResult)
    ensures r.Played? ==> r.sink == SinkFor(index, videoIndex, audioIndex)
  {
    if sendResult < 0 && sendResult != ErrorAgain && sendResult != ErrorEof then SkippedAtSend(sendResult)
    else if receiveResult < 0 && receiveResult != ErrorEof then SkippedAtReceive(receiveResult)
    else Played(SinkFor(index, videoIndex, audioIndex))
  }

  /**
   The two codes are treated differently at the two steps: "try again" is
   tolerated from send but skips the packet when receive returns it, while end
   of stream from receive still renders the frame buffer.
   */
  lemma AgainAndEofAsymmetry(index: int, videoIndex: int, audioIndex: int)
    ensures Handle(ErrorAgain, 0, index, videoIndex, audioIndex).Played?
    ensures Handle(0, ErrorAgain, index, videoIndex, audioIndex) == SkippedAtReceive(ErrorAgain)
    ensures Handle(ErrorEof, ErrorEof, index, videoIndex, audioIndex).Played?
    ensures ErrorAgain != ErrorEof && ErrorAgain < 0 && ErrorEof < 0
  {
  }
}

=== FILE: linked_queue.dfy ===
/**
 The queue as queue.cpp lays it out: a singly linked list of malloc'd nodes
 with `head`, `tail`, a `size` counter and the `is_block` flag.

 Memory is a map from node addresses to nodes holding exactly the nodes this
 queue has allocated and not yet freed; NULL is None. `Repr(q, nodes)` says
 that `nodes` lists the linked nodes from head to tail, and `Abs` reads the
 abstract queue of PacketQueue off that list. The lemmas below show that each
 linked-list operation does to the abstract queue what PacketQueue says, and
 that it keeps the list/size invariant.
 */
module LinkedQueue {
  import opened Wrappers
  import PacketQueue

  /** A node address; None is NULL. */
  type Ptr = Option<nat>

  datatype Node<T> = Node(data: T, next: Ptr)

  datatype LQueue<T> = LQueue(heap: map<nat, Node<T>>, head: Ptr, tail: Ptr, size: int, isBlock: bool)

  datatype LinkedPush<T> = InBlocks | InReturns(after: LQueue<T>)

  datatype LinkedPop<T> = OutBlocks | OutReturns(after: LQueue<T>, item: Option<T>)

  /** Non-NULL `head` and `tail` point at live nodes. */
  predicate PointersLive<T>(q: LQueue<T>) {
    && (q.head.Some? ==> q.head.value in q.heap)
    && (q.tail.Some? ==> q.tail.value in q.heap)
  }

  /**
   The list/size invariant: `nodes` are the live nodes, each once, linked from
   `head` to `tail` by `next`, the last `next` is NULL, and `size` counts them.
   */
  ghost predicate Repr<T>(q: LQueue<T>, nodes: seq<nat>) {
    && PointersLive(q)
    && q.size == |nodes|
    && (forall n :: n in q.heap <==> n in nodes)
    && (forall i, j :: 0 <= i < j < |nodes| ==> nodes[i] != nodes[j])
    && (forall i :: 0 <= i < |nodes| - 1 ==> q.heap[nodes[i]].next == Some(nodes[i + 1]))
    && (|nodes| > 0 ==> q.heap[nodes[|nodes| - 1]].next == None)
    && q.head == (if |nodes| == 0 then None else Some(nodes[0]))
    && q.tail == (if |nodes| == 0 then None else Some(nodes[|nodes| - 1]))
  }

  /** The elements stored in the list, head first. */
  ghost function Elems<T>(q: LQueue<T>, nodes: seq<nat>): (r: seq<T>)
    requires Repr(q, nodes)
    ensures |r| == |nodes|
    ensures forall i :: 0 <= i < |nodes| ==> r[i] == q.heap[nodes[i]].data
  {
    seq(|nodes|, i requires 0 <= i < |nodes| => q.heap[nodes[i]].data)
  }

  ghost function Abs<T>(q: LQueue<T>, nodes: seq<nat>): PacketQueue.Queue<T>
    requires Repr(q, nodes)
  {
    PacketQueue.Queue(Elems(q, nodes), q.isBlock)
  }

  function Init<T>(): (q: LQueue<T>)
    ensures Repr(q, []) && Abs(q, []) == PacketQueue.Init()
  {
    LQueue(map[], None, None, 0, true)
  }

  /** queue_is_empty on the counter: for a well-formed list, no node is linked and `head` is NULL. */
  predicate IsEmpty<T>(q: LQueue<T>): (r: bool)
    ensures forall nodes {:trigger Repr(q, nodes)} :: Repr(q, nodes) ==> (r <==> nodes == [] && q.head == None)
  {
    q.size == 0
  }

  /** queue_is_full on the counter: for a well-formed list, exactly QUEUE_MAX_SIZE nodes are linked. */
  predicate IsFull<T>(q: LQueue<T>): (r: bool)
    ensures forall nodes {:trigger Repr(q, nodes)} :: Repr(q, nodes) ==> (r <==> |nodes| == PacketQueue.MaxSize)
  {
    q.size == PacketQueue.MaxSize
  }

  /** The counter and the links agree: empty means NULL head and NULL tail, full means 50 linked nodes. */
  lemma SizeAgreesWithLinks<T>(q: LQueue<T>, nodes: seq<nat>)
    requires Repr(q, nodes)
    ensures IsEmpty(q) <==> q.head == None
    ensures q.head == None <==> q.tail == None
    ensures IsEmpty(q) <==> PacketQueue.IsEmpty(Abs(q, nodes))
    ensures IsFull(q) <==> PacketQueue.IsFull(Abs(q, nodes))
    ensures 0 <= q.size
    ensures PacketQueue.Valid(Abs(q, nodes)) <==> q.size <= PacketQueue.MaxSize
  {
  }

  /**
   queue_in, with `addr` the address malloc returns for the new node. The
   node is linked after `tail`, or becomes both `head` and `tail` when the
   list is empty.
   */
  function In<T>(q: LQueue<T>, addr: nat, e: T): (r: LinkedPush<T>)
    requires PointersLive(q) && addr !in q.heap
    ensures r.InBlocks? <==> IsFull(q) && q.isBlock
  {
    if IsFull(q) && q.isBlock then InBlocks
    else if q.size >= PacketQueue.MaxSize then InReturns(q)
    else
      var node := Node(e, None);
      if q.tail == None then
        InReturns(LQueue(q.heap[addr := node], Some(addr), Some(addr), q.size + 1, q.isBlock))
      else
        var t := q.tail.value;
        var heap := q.heap[addr := node][t := q.heap[t].(next := Some(addr))];
        InReturns(LQueue(heap, q.head, Some(addr), q.size + 1, q.isBlock))
  }

  /**
   queue_out. The wait tests `size`, the NULL return tests `head`; the head
   node is unlinked and freed, and `tail` is reset when the list becomes empty.
   */
  function Out<T>(q: LQueue<T>): (r: LinkedPop<T>)
    requires PointersLive(q)
    ensures r.OutBlocks? <==> IsEmpty(q) && q.isBlock
  {
    if IsEmpty(q) && q.isBlock then OutBlocks
    else if q.head == None then OutReturns(q, None)
    else OutReturns(Unlinked(q, q.head.value), Some(q.heap[q.head.value].data))
  }

  function BreakBlock<T>(q: LQueue<T>): (r: LQueue<T>)
    ensures r.heap == q.heap && r.head == q.head && r.tail == q.tail && r.size == q.size
    ensures !r.isBlock
  {
    q.(isBlock := false)
  }

  /** Linking a node at the tail of a non-empty list keeps the invariant and appends its element. */
  lemma LinkAtTail<T>(q: LQueue<T>, nodes: seq<nat>, addr: nat, e: T)
    requires Repr(q, nodes) && addr !in q.heap && |nodes| > 0
    ensures var t := nodes[|nodes| - 1];
            var r := LQueue(q.heap[addr := Node(e, None)][t := q.heap[t].(next := Some(addr))],
                            q.head, Some(addr), q.size + 1, q.isBlock);
            Repr(r, nodes + [addr]) && Elems(r, nodes + [addr]) == Elems(q, nodes) + [e]
  {
    var t := nodes[|nodes| - 1];
    var heap := q.heap[addr := Node(e, None)][t := q.heap[t].(next := Some(addr))];
    var r := LQueue(heap, q.head, Some(addr), q.size + 1, q.isBlock);
    var nodes' := nodes + [addr];
    assert addr !in nodes;
    assert forall n :: n in heap <==> n in nodes' by {
      forall n ensures n in heap <==> n in nodes' {
        assert n in nodes' <==> n in nodes || n == addr;
      }
    }
    assert forall i, j :: 0 <= i < j < |nodes'| ==> nodes'[i] != nodes'[j];
    forall i | 0 <= i < |nodes'| - 1
      ensures heap[nodes'[i]].next == Some(nodes'[i + 1])
    {
      if i < |nodes| - 1 {
        assert nodes[i] != t && nodes[i] != addr;
      }
    }
    assert heap[nodes'[|nodes'| - 1]].next == None;
    assert Repr(r, nodes');
    forall i | 0 <= i < |nodes'|
      ensures heap[nodes'[i]].data == (Elems(q, nodes) + [e])[i]
    {
      if i < |nodes| {
        assert nodes[i] != addr;
      }
    }
  }

  /** queue_in on the linked list is queue_in on the abstract queue, and keeps the invariant. */
  lemma InRefines<T>(q: LQueue<T>, nodes: seq<nat>, addr: nat, e: T)
    requires Repr(q, nodes) && addr !in q.heap
    ensures In(q, addr, e).InBlocks? <==> PacketQueue.In(Abs(q, nodes), e).PushBlocks?
    ensures In(q, addr, e).InReturns? && |nodes| < PacketQueue.MaxSize ==>
              && Repr(In(q, addr, e).after, nodes + [addr])
              && Abs(In(q, addr, e).after, nodes + [addr]) == PacketQueue.In(Abs(q, nodes), e).after
    ensures In(q, addr, e).InReturns? && q.size <= PacketQueue.MaxSize ==> In(q, addr, e).after.size <= PacketQueue.MaxSize
    ensures In(q, addr, e).InReturns? && |nodes| >= PacketQueue.MaxSize ==>
              && In(q, addr, e).after == q
              && PacketQueue.In(Abs(q, nodes), e).after == Abs(q, nodes)
  {
    if In(q, addr, e).InReturns? && |nodes| < PacketQueue.MaxSize {
      var r := In(q, addr, e).after;
      if |nodes| == 0 {
        assert Repr(r, [addr]);
        assert Elems(r, [addr]) == [e];
      } else {
        LinkAtTail(q, nodes, addr, e);
      }
    }
  }

  /** The queue left after unlinking and freeing the head node of a non-empty list. */
  function Unlinked<T>(q: LQueue<T>, h: nat): LQueue<T>
    requires h in q.heap
  {
    var next := q.heap[h].next;
    LQueue(q.heap - {h}, next, if next == None then None else q.tail, q.size - 1, q.isBlock)
  }

  /** Unlinking the head node keeps the invariant and drops the first element. */
  lemma UnlinkHead<T>(q: LQueue<T>, nodes: seq<nat>)
    requires Repr(q, nodes) && |nodes| > 0
    ensures Repr(Unlinked(q, nodes[0]), nodes[1..])
    ensures Elems(Unlinked(q, nodes[0]), nodes[1..]) == Elems(q, nodes)[1..]
  {
    var r := Unlinked(q, nodes[0]);
    var nodes' := nodes[1..];
    UnlinkedKeepsLinks(q, nodes);
    UnlinkedNodes(q, nodes);
    if |nodes'| > 0 {
      assert r.tail == Some(nodes'[|nodes'| - 1]);
    }
    assert Repr(r, nodes');
    UnlinkedElems(q, nodes);
  }

  lemma UnlinkedElems<T>(q: LQueue<T>, nodes: seq<nat>)
    requires Repr(q, nodes) && |nodes| > 0 && Repr(Unlinked(q, nodes[0]), nodes[1..])
    ensures Elems(Unlinked(q, nodes[0]), nodes[1..]) == Elems(q, nodes)[1..]
  {
    var r := Unlinked(q, nodes[0]);
    var nodes' := nodes[1..];
    UnlinkedKeepsLinks(q, nodes);
    forall i | 0 <= i < |nodes'|
      ensures Elems(r, nodes')[i] == Elems(q, nodes)[1..][i]
    {
      assert r.heap[nodes'[i]] == q.heap[nodes[i + 1]];
    }
  }

  /** After unlinking the head, exactly the other nodes are live, each listed once. */
  lemma UnlinkedNodes<T>(q: LQueue<T>, nodes: seq<nat>)
    requires Repr(q, nodes) && |nodes| > 0
    ensures forall n :: n in Unlinked(q, nodes[0]).heap <==> n in nodes[1..]
    ensures forall i, j :: 0 <= i < j < |nodes[1..]| ==> nodes[1..][i] != nodes[1..][j]
  {
    var h := nodes[0];
    var nodes' := nodes[1..];
    assert h !in nodes';
    forall n ensures n in Unlinked(q, h).heap <==> n in nodes' {
      assert nodes == [h] + nodes';
    }
    forall i, j | 0 <= i < j < |nodes'| ensures nodes'[i] != nodes'[j] {
      assert nodes[i + 1] != nodes[j + 1];
    }
  }

  /** After unlinking the head, the remaining nodes keep their contents and links. */
  lemma UnlinkedKeepsLinks<T>(q: LQueue<T>, nodes: seq<nat>)
    requires Repr(q, nodes) && |nodes| > 0
    ensures var r := Unlinked(q, nodes[0]);
            && (forall i :: 0 <= i < |nodes| - 1 ==> nodes[1..][i] in r.heap && r.heap[nodes[1..][i]] == q.heap[nodes[i + 1]])
            && (forall i :: 0 <= i < |nodes| - 2 ==> r.heap[nodes[1..][i]].next == Some(nodes[1..][i + 1]))
            && (|nodes| > 1 ==> r.heap[nodes[|nodes| - 1]].next == None)
            && r.head == (if |nodes| == 1 then None else Some(nodes[1]))
            && PointersLive(r)
  {
    var r := Unlinked(q, nodes[0]);
    forall i | 1 <= i < |nodes|
      ensures nodes[i] != nodes[0]
    {
    }
    if |nodes| > 1 {
      assert q.heap[nodes[0]].next == Some(nodes[1]);
    }
  }

  /** queue_out on the linked list is queue_out on the abstract queue, and keeps the invariant. */
  lemma OutRefines<T>(q: LQueue<T>, nodes: seq<nat>)
    requires Repr(q, nodes)
    ensures Out(q).OutBlocks? <==> PacketQueue.Out(Abs(q, nodes)).PopBlocks?
    ensures Out(q).OutReturns? ==> Out(q).item == PacketQueue.Out(Abs(q, nodes)).item
    ensures Out(q).OutReturns? && |nodes| > 0 ==>
              && Repr(Out(q).after, nodes[1..])
              && Abs(Out(q).after, nodes[1..]) == PacketQueue.Out(Abs(q, nodes)).after
    ensures Out(q).OutReturns? && |nodes| == 0 ==> Out(q).after == q
  {
    if |nodes| > 0 {
      UnlinkHead(q, nodes);
    }
  }

  lemma BreakBlockRefines<T>(q: LQueue<T>, nodes: seq<nat>)
    requires Repr(q, nodes)
    ensures Repr(BreakBlock(q), nodes)
    ensures Abs(BreakBlock(q), nodes) == PacketQueue.BreakBlock(Abs(q, nodes))
  {
  }

  /**
   The loop shared by queue_destroy and queue_clear: walk from `head`,
   advancing `head` and freeing the node just left. Every node ends up freed,
   and `freed` records the addresses in the order the loop frees them: the
   list from head to tail, no address twice.
   */
  method FreeNodes<T>(q: LQueue<T>, ghost nodes: seq<nat>) returns (heap: map<nat, Node<T>>, ghost freed: seq<nat>)
    requires Repr(q, nodes)
    ensures heap == map[]
    ensures freed == nodes
    ensures forall i, j :: 0 <= i < j < |freed| ==> freed[i] != freed[j]
  {
    heap := q.heap;
    freed := [];
    var node := q.head;
    ghost var k := 0;
    while node != None
      invariant 0 <= k <= |nodes|
      invariant freed == nodes[..k]
      invariant node == (if k == |nodes| then None else Some(nodes[k]))
      invariant forall n :: n in heap <==> n in nodes[k..]
      invariant forall n :: n in heap ==> heap[n] == q.heap[n]
      decreases |nodes| - k
    {
      assert nodes[k] in nodes[k..];
      var next := heap[node.value].next;
      LiveAfterFree(heap, nodes, k);
      heap := heap - {node.value};
      freed := freed + [node.value];
      assert freed == nodes[..k + 1];
      node := next;
      k := k + 1;
    }
    assert heap.Keys == {};
    assert nodes[..k] == nodes;
  }

  /** Freeing the node at position `k` of a list of distinct nodes leaves exactly the nodes after it live. */
  lemma LiveAfterFree<T>(heap: map<nat, Node<T>>, nodes: seq<nat>, k: nat)
    requires k < |nodes|
    requires forall i, j :: 0 <= i < j < |nodes| ==> nodes[i] != nodes[j]
    requires forall n :: n in heap <==> n in nodes[k..]
    ensures forall n :: n in heap - {nodes[k]} <==> n in nodes[k + 1..]
  {
    forall n
      ensures n in heap - {nodes[k]} <==> n in nodes[k + 1..]
    {
      if n in nodes[k + 1..] {
        var j :| k + 1 <= j < |nodes| && nodes[j] == n;
        assert nodes[k] != nodes[j];
      }
      assert nodes[k..] == [nodes[k]] + nodes[k + 1..];
    }
  }

  /** queue_clear: free every node, reset the list, turn blocking back on. */
  method Clear<T>(q: LQueue<T>, ghost nodes: seq<nat>) returns (r: LQueue<T>)
    requires Repr(q, nodes)
    ensures Repr(r, []) && Abs(r, []) == PacketQueue.Clear(Abs(q, nodes))
  {
    var heap, freed := FreeNodes(q, nodes);
    r := LQueue(heap, None, None, 0, true);
  }

  /** queue_destroy: free every node, reset the list, turn blocking off. */
  method Destroy<T>(q: LQueue<T>, ghost nodes: seq<nat>) returns (r: LQueue<T>)
    requires Repr(q, nodes)
    ensures Repr(r, []) && Abs(r, []) == PacketQueue.Destroy(Abs(q, nodes))
  {
    var heap, freed := FreeNodes(q, nodes);
    r := LQueue(heap, None, None, 0, false);
  }
}

=== FILE: packet_queue.dfy ===
/**
 The bounded FIFO packet queue (queue.cpp), seen sequentially.

 A queue is the ordered sequence of elements it holds plus the `is_block`
 flag. Elements are opaque handles that the queue never inspects, so the
 element type is a type parameter. The blocking wait at the top of `queue_in`
 and `queue_out` becomes an outcome: the call either blocks (it would wait on
 its condition variable) or returns with the queue's new state. Everything
 after the wait is deterministic and modelled exactly.
 */
module PacketQueue {
  import opened Wrappers

  /** QUEUE_MAX_SIZE: the fixed capacity of every queue. */
  const MaxSize: nat := 50

  datatype Queue<T> = Queue(elems: seq<T>, isBlock: bool)

  /** The outcome of `queue_in`. */
  datatype Push<T> = PushBlocks | PushReturns(after: Queue<T>)

  /** The outcome of `queue_out`: `item` is None where the source returns NULL. */
  datatype Pop<T> = PopBlocks | PopReturns(after: Queue<T>, item: Option<T>)

  /** The size bound every reachable queue satisfies. */
  predicate Valid<T>(q: Queue<T>) {
    |q.elems| <= MaxSize
  }

  function Size<T>(q: Queue<T>): nat {
    |q.elems|
  }

  /** queue_is_empty: the queue holds no element. */
  predicate IsEmpty<T>(q: Queue<T>): (r: bool)
    ensures r <==> q.elems == []
    ensures r ==> !IsFull(q)
  {
    Size(q) == 0
  }

  /** queue_is_full: the counter is at the capacity, so a valid queue has no room for another element. */
  predicate IsFull<T>(q: Queue<T>): (r: bool)
    ensures r ==> |q.elems| > 0
    ensures Valid(q) ==> (r <==> |q.elems| + 1 > MaxSize)
  {
    Size(q) == MaxSize
  }

  /** queue_init: an empty queue with blocking enabled. */
  function Init<T>(): (q: Queue<T>)
    ensures Valid(q) && IsEmpty(q) && !IsFull(q) && q.isBlock
  {
    Queue([], true)
  }

  /**
   queue_in. The call waits while the queue is full and blocking is on. Once
   past the wait, a queue that is still at capacity drops the element;
   otherwise the element is linked at the tail.
   */
  function In<T>(q: Queue<T>, e: T): (r: Push<T>)
    ensures r.PushBlocks? <==> IsFull(q) && q.isBlock
    ensures r.PushReturns? && Size(q) < MaxSize ==> r.after.elems == q.elems + [e]
    ensures r.PushReturns? && Size(q) >= MaxSize ==> r.after == q
    ensures r.PushReturns? ==> r.after.isBlock == q.isBlock
    ensures r.PushReturns? && Valid(q) ==> Valid(r.after)
  {
    if IsFull(q) && q.isBlock then PushBlocks
    else if Size(q) >= MaxSize then PushReturns(q)
    else PushReturns(Queue(q.elems + [e], q.isBlock))
  }

  /**
   queue_out. The call waits while the queue is empty and blocking is on.
   Once past the wait, an empty queue yields NULL; otherwise the head element
   is unlinked and returned.
   */
  function Out<T>(q: Queue<T>): (r: Pop<T>)
    ensures r.PopBlocks? <==> IsEmpty(q) && q.isBlock
    ensures r.PopReturns? && IsEmpty(q) ==> r.item == None && r.after == q
    ensures r.PopReturns? && !IsEmpty(q) ==>
              && r.item == Some(q.elems[0])
              && q.elems == [q.elems[0]] + r.after.elems
              && r.after.isBlock == q.isBlock
    ensures r.PopReturns? && Valid(q) ==> Valid(r.after)
  {
    if IsEmpty(q) && q.isBlock then PopBlocks
    else if |q.elems| == 0 then PopReturns(q, None)
    else PopReturns(Queue(q.elems[1..], q.isBlock), Some(q.elems[0]))
  }

  /** queue_clear: unlink every element and turn blocking back on. */
  function Clear<T>(q: Queue<T>): (r: Queue<T>)
    ensures Valid(r) && IsEmpty(r) && r.isBlock
  {
    Queue([], true)
  }

  /** queue_destroy: unlink every element and turn blocking off. */
  function Destroy<T>(q: Queue<T>): (r: Queue<T>)
    ensures Valid(r) && IsEmpty(r) && !r.isBlock
  {
    Queue([], false)
  }

  /** break_block: turn blocking off; the elements are untouched. */
  function BreakBlock<T>(q: Queue<T>): (r: Queue<T>)
    ensures r.elems == q.elems && !r.isBlock
  {
    q.(isBlock := false)
  }

  /** The capacity is fixed: no operation takes a queue past QUEUE_MAX_SIZE elements. */
  lemma EveryOperationKeepsCapacity<T>(q: Queue<T>, e: T)
    requires Valid(q)
    ensures In(q, e).PushReturns? ==> Valid(In(q, e).after)
    ensures Out(q).PopReturns? ==> Valid(Out(q).after)
    ensures Valid(Clear(q)) && Valid(Destroy(q)) && Valid(BreakBlock(q))
  {
  }

  lemma BreakBlockIdempotent<T>(q: Queue<T>)
    ensures BreakBlock(BreakBlock(q)) == BreakBlock(q)
  {
  }

  /** Once blocking is off neither operation can block, whatever the queue holds. */
  lemma UnblockedNeverBlocks<T>(q: Queue<T>, e: T)
    ensures In(BreakBlock(q), e).PushReturns?
    ensures Out(BreakBlock(q)).PopReturns?
  {
  }

  /** One push per element of `xs`, in order; None if some push blocks. */
  function PushAll<T>(q: Queue<T>, xs: seq<T>): Option<Queue<T>>
    decreases |xs|
  {
    if |xs| == 0 then Some(q)
    else match In(q, xs[0])
      case PushBlocks => None
      case PushReturns(q') => PushAll(q', xs[1..])
  }

  /** `n` pops in a row, with the results in the order returned; None if some pop blocks. */
  function PopMany<T>(q: Queue<T>, n: nat): Option<(Queue<T>, seq<Option<T>>)>
    decreases n
  {
    if n == 0 then Some((q, []))
    else match Out(q)
      case PopBlocks => None
      case PopReturns(q', item) =>
        match PopMany(q', n - 1)
        case None => None
        case Some((q'', items)) => Some((q'', [item] + items))
  }

  /** The results a consumer sees when it is handed the elements `xs` in order. */
  function Delivered<T>(xs: seq<T>): (r: seq<Option<T>>)
    ensures |r| == |xs|
    ensures forall i :: 0 <= i < |xs| ==> r[i] == Some(xs[i])
  {
    seq(|xs|, i requires 0 <= i < |xs| => Some(xs[i]))
  }

  /** Pushes that fit within the capacity never block and append in order. */
  lemma {:induction false} PushAllAppends<T>(q: Queue<T>, xs: seq<T>)
    requires Size(q) + |xs| <= MaxSize
    ensures PushAll(q, xs) == Some(Queue(q.elems + xs, q.isBlock))
    decreases |xs|
  {
    if |xs| > 0 {
      var q' := Queue(q.elems + [xs[0]], q.isBlock);
      assert In(q, xs[0]) == PushReturns(q');
      PushAllAppends(q', xs[1..]);
      assert q'.elems + xs[1..] == q.elems + xs;
    } else {
      assert q.elems + xs == q.elems;
    }
  }

  /** Popping as many times as there are elements returns them head first and empties the queue. */
  lemma {:induction false} PopManyInOrder<T>(q: Queue<T>)
    ensures PopMany(q, Size(q)) == Some((Queue([], q.isBlock), Delivered(q.elems)))
    decreases Size(q)
  {
    if Size(q) > 0 {
      var q' := Queue(q.elems[1..], q.isBlock);
      assert Out(q) == PopReturns(q', Some(q.elems[0]));
      PopManyInOrder(q');
      assert [Some(q.elems[0])] + Delivered(q'.elems) == Delivered(q.elems);
    }
  }

  /** FIFO: N pushes onto an empty queue followed by N pops return the elements in push order. */
  lemma FifoOrder<T>(xs: seq<T>, block: bool)
    requires |xs| <= MaxSize
    ensures PushAll(Queue([], block), xs) == Some(Queue(xs, block))
    ensures PopMany(Queue(xs, block), |xs|) == Some((Queue([], block), Delivered(xs)))
  {
    PushAllAppends(Queue([], block), xs);
    assert [] + xs == xs;
    PopManyInOrder(Queue(xs, block));
  }

  function Min(a: nat, b: nat): nat {
    if a <= b then a else b
  }

  /**
   Once blocking is off, pushes never block and a push that finds the queue
   full is dropped: the queue keeps the oldest elements up to its capacity.
   */
  lemma {:induction false} UnblockedPushKeepsPrefix<T>(q: Queue<T>, xs: seq<T>)
    requires Valid(q) && !q.isBlock
    ensures PushAll(q, xs) == Some(Queue((q.elems + xs)[..Min(MaxSize, Size(q) + |xs|)], false))
    decreases |xs|
  {
    var all := q.elems + xs;
    if |xs| > 0 {
      if Size(q) < MaxSize {
        var q' := Queue(q.elems + [xs[0]], false);
        assert In(q, xs[0]) == PushReturns(q');
        UnblockedPushKeepsPrefix(q', xs[1..]);
        assert q'.elems + xs[1..] == all;
      } else {
        assert In(q, xs[0]) == PushReturns(q);
        UnblockedPushKeepsPrefix(q, xs[1..]);
        assert (q.elems + xs[1..])[..MaxSize] == q.elems == all[..MaxSize];
      }
    } else {
      assert all[..Size(q)] == q.elems;
    }
  }

  /** The sequence of calls exercised by the queue's intended use: three pushes, three pops, unblock, a NULL pop. */
  lemma PushPopThenUnblock()
    ensures PushAll(Init<int>(), [1, 2, 3]) == Some(Queue([1, 2, 3], true))
    ensures PopMany(Queue([1, 2, 3], true), 3) == Some((Queue([], true), [Some(1), Some(2), Some(3)]))
    ensures Out(BreakBlock(Init<int>())) == PopReturns(Queue([], false), None)
  {
    FifoOrder([1, 2, 3], true);
    assert Delivered([1, 2, 3]) == [Some(1), Some(2), Some(3)];
  }
}

=== FILE: pipeline.dfy ===
/**
 The producer/consumer pipeline of player.cpp as a state machine.

 One producer thread (`produce`) and two consumer threads (`consume`, one per
 stream) share two packet queues. Each action below is one atomic step of
 one thread; a step that returns None cannot run now (its thread would block
 in `queue_in` or `queue_out`, is sleeping in the drain poll, or has ended),
 so every interleaving of the threads is a sequence of actions. The demuxer
 is the sequence `demuxed` of stream indices that `av_read_frame` reports
 before it first fails; packet handles are read numbers, because `produce`
 allocates a fresh packet for every read. Decoding results are inputs of the
 Process action.
 */
module Pipeline {
  import opened Wrappers
  import Q = PacketQueue
  import Decode
  import Streams

  /** An AVPacket: a distinct handle per read, and the stream it belongs to. */
  datatype Packet = Packet(handle: nat, stream: int)

  datatype Target = ToVideo | ToAudio | Nowhere

  datatype Role = VideoRole | AudioRole

  datatype ProducerPhase = Reading | Draining | Released

  /**
   A consumer thread: attaching to the JVM, waiting in `queue_out`, holding a
   popped packet it is decoding, exited after a NULL pop, or gone because
   attaching failed.
   */
  datatype ConsumerPhase = Attaching | Waiting | Holding(packet: Packet) | Exited | AttachFailed

  /** A packet a consumer has finished with (and freed), and what became of it. */
  datatype Processed = Processed(packet: Packet, outcome: Decode.Outcome)

  datatype Consumer = Consumer(index: int, phase: ConsumerPhase, log: seq<Processed>)

  datatype State = State(
    demuxed: seq<int>,
    pos: nat,
    videoIndex: int,
    audioIndex: int,
    video: Q.Queue<Packet>,
    audio: Q.Queue<Packet>,
    producer: ProducerPhase,
    releases: nat,
    videoConsumer: Consumer,
    audioConsumer: Consumer)

  /**
   When the draining producer may release: PollQueues is the source's rule
   (both queues empty); JoinConsumers also waits for both consumer threads to
   have ended.
   */
  datatype DrainPolicy = PollQueues | JoinConsumers

  datatype Action =
    | Produce
    | Attach(role: Role, ok: bool)
    | Pop(role: Role)
    | Process(role: Role, sendResult: int, receiveResult: int)

  /** The routing in `produce`: video first, then audio, otherwise the packet is not queued. */
  function Route(stream: int, videoIndex: int, audioIndex: int): (r: Target)
    ensures r == ToVideo <==> stream == videoIndex
    ensures r == ToAudio <==> stream != videoIndex && stream == audioIndex
    ensures r == Nowhere <==> stream != videoIndex && stream != audioIndex
  {
    if stream == videoIndex then ToVideo
    else if stream == audioIndex then ToAudio
    else Nowhere
  }

  /** The queue `consume` picks by comparing its stream index with the player's two indices. */
  function QueueRole(index: int, videoIndex: int, audioIndex: int): (r: Option<Role>)
    ensures r == Some(VideoRole) <==> index == videoIndex
    ensures r == Some(AudioRole) <==> index != videoIndex && index == audioIndex
    ensures r == None <==> index != videoIndex && index != audioIndex
  {
    if index == videoIndex then Some(VideoRole)
    else if index == audioIndex then Some(AudioRole)
    else None
  }

  function TargetOf(role: Role): Target {
    match role
    case VideoRole => ToVideo
    case AudioRole => ToAudio
  }

  function SinkOf(role: Role): Decode.Sink {
    match role
    case VideoRole => Decode.VideoSink
    case AudioRole => Decode.AudioSink
  }

  function ConsumerOf(s: State, role: Role): Consumer {
    match role
    case VideoRole => s.videoConsumer
    case AudioRole => s.audioConsumer
  }

  function QueueOf(s: State, role: Role): Q.Queue<Packet> {
    match role
    case VideoRole => s.video
    case AudioRole => s.audio
  }

  function WithConsumer(s: State, role: Role, c: Consumer): State {
    match role
    case VideoRole => s.(videoConsumer := c)
    case AudioRole => s.(audioConsumer := c)
  }

  function WithQueue(s: State, role: Role, q: Q.Queue<Packet>): State {
    match role
    case VideoRole => s.(video := q)
    case AudioRole => s.(audio := q)
  }

  /** The consumer thread has returned (or never got past attaching). */
  predicate Ended(c: Consumer) {
    c.phase.Exited? || c.phase.AttachFailed?
  }

  /**
   play_start and thread_init: two fresh queues, the producer reading, and
   one consumer per stream holding a copy of that stream's index.
   */
  function Start(p: Streams.Player, demuxed: seq<int>): (s: State)
    ensures s.demuxed == demuxed && s.pos == 0 && s.producer == Reading && s.releases == 0
    ensures s.videoIndex == p.videoStreamIndex && s.audioIndex == p.audioStreamIndex
    ensures s.video == Q.Init() && s.audio == Q.Init()
    ensures s.videoConsumer.index == p.videoStreamIndex && s.audioConsumer.index == p.audioStreamIndex
    ensures s.videoConsumer.phase.Attaching? && s.audioConsumer.phase.Attaching?
    ensures s.videoConsumer.log == [] && s.audioConsumer.log == []
  {
    State(demuxed, 0, p.videoStreamIndex, p.audioStreamIndex, Q.Init(), Q.Init(), Reading, 0,
          Consumer(p.videoStreamIndex, Attaching, []), Consumer(p.audioStreamIndex, Attaching, []))
  }

  predicate DrainReady(s: State, policy: DrainPolicy) {
    && Q.IsEmpty(s.video)
    && Q.IsEmpty(s.audio)
    && (policy == JoinConsumers ==> Ended(s.videoConsumer) && Ended(s.audioConsumer))
  }

  /** The other consumer. */
  function Other(role: Role): Role {
    match role
    case VideoRole => AudioRole
    case AudioRole => VideoRole
  }

  /** Only the producer's part of the state and the queues changed: both consumers are untouched. */
  predicate ConsumersKept(s: State, s': State) {
    && s'.demuxed == s.demuxed && s'.videoIndex == s.videoIndex && s'.audioIndex == s.audioIndex
    && s'.videoConsumer == s.videoConsumer && s'.audioConsumer == s.audioConsumer
  }

  /** Only consumer `role` and the queues changed: the producer and the other consumer are untouched. */
  predicate ProducerKept(s: State, s': State, role: Role) {
    && s'.demuxed == s.demuxed && s'.videoIndex == s.videoIndex && s'.audioIndex == s.audioIndex
    && s'.pos == s.pos && s'.producer == s.producer && s'.releases == s.releases
    && ConsumerOf(s', Other(role)) == ConsumerOf(s, Other(role))
    && ConsumerOf(s', role).index == ConsumerOf(s, role).index
  }

  /**
   One step of `produce`. Reading: a failed read ends the loop and unblocks
   both queues; otherwise the packet is pushed onto the queue its stream
   selects (the step blocks while that queue is full) or queued nowhere.
   Draining: release once the drain condition holds; poll otherwise.
   */
  function ProducerStep(s: State, policy: DrainPolicy): (r: Option<State>)
    ensures r.Some? ==> ConsumersKept(s, r.value)
    ensures s.producer == Reading && s.pos >= |s.demuxed| ==>
              && r.Some? && r.value.producer == Draining
              && r.value.pos == s.pos && r.value.releases == s.releases
              && r.value.video.elems == s.video.elems && r.value.audio.elems == s.audio.elems
              && !r.value.video.isBlock && !r.value.audio.isBlock
    ensures s.producer == Reading && s.pos < |s.demuxed| ==>
              var p := Packet(s.pos, s.demuxed[s.pos]);
              var t := Route(p.stream, s.videoIndex, s.audioIndex);
              && (r.None? <==> || (t == ToVideo && Q.IsFull(s.video) && s.video.isBlock)
                               || (t == ToAudio && Q.IsFull(s.audio) && s.audio.isBlock))
              && (r.Some? ==> r.value.producer == Reading && r.value.pos == s.pos + 1 && r.value.releases == s.releases)
              && (r.Some? && t != ToVideo ==> r.value.video == s.video)
              && (r.Some? && t != ToAudio ==> r.value.audio == s.audio)
              && (r.Some? && t == ToVideo && Q.Size(s.video) < Q.MaxSize ==>
                    r.value.video == Q.Queue(s.video.elems + [p], s.video.isBlock))
              && (r.Some? && t == ToVideo && Q.Size(s.video) >= Q.MaxSize ==> r.value.video == s.video)
              && (r.Some? && t == ToAudio && Q.Size(s.audio) < Q.MaxSize ==>
                    r.value.audio == Q.Queue(s.audio.elems + [p], s.audio.isBlock))
              && (r.Some? && t == ToAudio && Q.Size(s.audio) >= Q.MaxSize ==> r.value.audio == s.audio)
    ensures s.producer == Draining ==>
              && (r.Some? <==> DrainReady(s, policy))
              && (r.Some? ==>
                    && r.value.producer == Released && r.value.releases == s.releases + 1 && r.value.pos == s.pos
                    && Q.IsEmpty(r.value.video) && Q.IsEmpty(r.value.audio)
                    && !r.value.video.isBlock && !r.value.audio.isBlock)
    ensures s.producer == Released ==> r.None?
  {
    match s.producer
    case Reading =>
      if s.pos >= |s.demuxed| then
        Some(s.(video := Q.BreakBlock(s.video), audio := Q.BreakBlock(s.audio), producer := Draining))
      else
        var p := Packet(s.pos, s.demuxed[s.pos]);
        (match Route(p.stream, s.videoIndex, s.audioIndex)
         case ToVideo =>
           (match Q.In(s.video, p)
            case PushBlocks => None
            case PushReturns(q) => Some(s.(video := q, pos := s.pos + 1)))
         case ToAudio =>
           (match Q.In(s.audio, p)
            case PushBlocks => None
            case PushReturns(q) => Some(s.(audio := q, pos := s.pos + 1)))
         case Nowhere => Some(s.(pos := s.pos + 1)))
    case Draining =>
      if DrainReady(s, policy) then
        Some(s.(producer := Released, releases := s.releases + 1,
                video := Q.Destroy(s.video), audio := Q.Destroy(s.audio)))
      else None
    case Released => None
  }

  /** The consumer thread attaches to the JVM; on failure it exits at once. */
  function AttachStep(s: State, role: Role, ok: bool): (r: Option<State>)
    ensures r.Some? <==> ConsumerOf(s, role).phase.Attaching?
    ensures r.Some? ==>
              && ProducerKept(s, r.value, role)
              && r.value.video == s.video && r.value.audio == s.audio
              && ConsumerOf(r.value, role).log == ConsumerOf(s, role).log
              && (ok ==> ConsumerOf(r.value, role).phase.Waiting?)
              && (!ok ==> ConsumerOf(r.value, role).phase.AttachFailed?)
  {
    var c := ConsumerOf(s, role);
    if !c.phase.Attaching? then None
    else Some(WithConsumer(s, role, c.(phase := if ok then Waiting else AttachFailed)))
  }

  /**
   `queue_out` on the consumer's queue: NULL ends the loop, a packet is taken
   for decoding. The queue is the one QueueRole picks for the consumer's index;
   a consumer whose index is neither stream's has no queue and cannot step.
   */
  function PopStep(s: State, role: Role): (r: Option<State>)
    ensures r.Some? ==> ConsumerOf(s, role).phase.Waiting?
    ensures QueueRole(ConsumerOf(s, role).index, s.videoIndex, s.audioIndex).None? ==> r.None?
    ensures r.Some? ==> ProducerKept(s, r.value, role) && ConsumerOf(r.value, role).log == ConsumerOf(s, role).log
    ensures ConsumerOf(s, role).phase.Waiting? ==>
              forall qr :: QueueRole(ConsumerOf(s, role).index, s.videoIndex, s.audioIndex) == Some(qr) ==>
                var q := QueueOf(s, qr);
                && (r.None? <==> Q.IsEmpty(q) && q.isBlock)
                && (r.Some? ==> QueueOf(r.value, Other(qr)) == QueueOf(s, Other(qr)))
                && (r.Some? && Q.IsEmpty(q) ==> ConsumerOf(r.value, role).phase == Exited && QueueOf(r.value, qr) == q)
                && (r.Some? && !Q.IsEmpty(q) ==>
                      && ConsumerOf(r.value, role).phase == Holding(q.elems[0])
                      && q.elems == [q.elems[0]] + QueueOf(r.value, qr).elems
                      && QueueOf(r.value, qr).isBlock == q.isBlock)
  {
    var c := ConsumerOf(s, role);
    if !c.phase.Waiting? then None
    else match QueueRole(c.index, s.videoIndex, s.audioIndex)
      case None => None
      case Some(qr) =>
        match Q.Out(QueueOf(s, qr))
        case PopBlocks => None
        case PopReturns(q, None) => Some(WithConsumer(WithQueue(s, qr, q), role, c.(phase := Exited)))
        case PopReturns(q, Some(p)) => Some(WithConsumer(WithQueue(s, qr, q), role, c.(phase := Holding(p))))
  }

  /** Decode the held packet, render or skip it, free it, and go back to `queue_out`. */
  function ProcessStep(s: State, role: Role, sendResult: int, receiveResult: int): (r: Option<State>)
    ensures r.Some? <==> ConsumerOf(s, role).phase.Holding?
    ensures r.Some? ==>
              var c := ConsumerOf(s, role);
              && ProducerKept(s, r.value, role)
              && r.value.video == s.video && r.value.audio == s.audio
              && ConsumerOf(r.value, role).phase == Waiting
              && |ConsumerOf(r.value, role).log| == |c.log| + 1
              && ConsumerOf(r.value, role).log[..|c.log|] == c.log
              && ConsumerOf(r.value, role).log[|c.log|].packet == c.phase.packet
              && ConsumerOf(r.value, role).log[|c.log|].outcome
                 == Decode.Handle(sendResult, receiveResult, c.index, s.videoIndex, s.audioIndex)
  {
    var c := ConsumerOf(s, role);
    match c.phase
    case Holding(p) =>
      var outcome := Decode.Handle(sendResult, receiveResult, c.index, s.videoIndex, s.audioIndex);
      Some(WithConsumer(s, role, c.(phase := Waiting, log := c.log + [Processed(p, outcome)])))
    case _ => None
  }

  /**
   One step of one thread. Threads share only the queues: a produce step
   leaves both consumers as they were, and a consumer step leaves the
   producer and the other consumer as they were.
   */
  function Next(s: State, act: Action, policy: DrainPolicy): (r: Option<State>)
    ensures r.Some? && act.Produce? ==> ConsumersKept(s, r.value)
    ensures r.Some? && !act.Produce? ==> ProducerKept(s, r.value, act.role)
    ensures r.Some? && (act.Attach? || act.Process?) ==> r.value.video == s.video && r.value.audio == s.audio
    ensures r.Some? ==> r.value.releases >= s.releases
  {
    match act
    case Produce => ProducerStep(s, policy)
    case Attach(role, ok) => AttachStep(s, role, ok)
    case Pop(role) => PopStep(s, role)
    case Process(role, send, receive) => ProcessStep(s, role, send, receive)
  }

  /** The packets of the first `n` demuxed that `produce` routes to `t`, in read order. */
  function Routed(demuxed: seq<int>, n: nat, videoIndex: int, audioIndex: int, t: Target): seq<Packet>
    requires n <= |demuxed|
    decreases n
  {
    if n == 0 then []
    else
      Routed(demuxed, n - 1, videoIndex, audioIndex, t)
      + (if Route(demuxed[n - 1], videoIndex, audioIndex) == t then [Packet(n - 1, demuxed[n - 1])] else [])
  }

  function Packets(log: seq<Processed>): (r: seq<Packet>)
    ensures |r| == |log|
    ensures forall i :: 0 <= i < |log| ==> r[i] == log[i].packet
  {
    seq(|log|, i requires 0 <= i < |log| => log[i].packet)
  }

  /** The packets a consumer has taken from its queue: those it finished, then the one it holds. */
  function Taken(c: Consumer): seq<Packet> {
    Packets(c.log) + (if c.phase.Holding? then [c.phase.packet] else [])
  }

  ghost predicate ConsumerInv(s: State, role: Role)
    requires s.pos <= |s.demuxed|
  {
    var c := ConsumerOf(s, role);
    var q := QueueOf(s, role);
    && Taken(c) + q.elems == Routed(s.demuxed, s.pos, s.videoIndex, s.audioIndex, TargetOf(role))
    && (c.phase.Attaching? || c.phase.AttachFailed? ==> c.log == [])
    && (c.phase.Exited? ==> Q.IsEmpty(q) && !q.isBlock)
    && (forall i :: 0 <= i < |c.log| && c.log[i].outcome.Played? ==> c.log[i].outcome.sink == Some(SinkOf(role)))
  }

  /**
   The pipeline invariant: queues within capacity and blocking exactly while
   the producer demuxed; the release counter; and for each stream, the packets
   its consumer took followed by those still queued are exactly the packets
   read so far for that stream, in read order.
   */
  ghost predicate Inv(s: State) {
    && s.pos <= |s.demuxed|
    && s.videoIndex != s.audioIndex
    && s.videoConsumer.index == s.videoIndex
    && s.audioConsumer.index == s.audioIndex
    && Q.Valid(s.video) && Q.Valid(s.audio)
    && (s.producer == Reading ==> s.video.isBlock && s.audio.isBlock)
    && (s.producer != Reading ==> s.pos == |s.demuxed| && !s.video.isBlock && !s.audio.isBlock)
    && s.releases == (if s.producer == Released then 1 else 0)
    && (s.producer == Released ==> Q.IsEmpty(s.video) && Q.IsEmpty(s.audio))
    && ConsumerInv(s, VideoRole)
    && ConsumerInv(s, AudioRole)
  }

  /** A session started by Player.play satisfies the invariant: its two stream indices differ. */
  lemma StartEstablishesInv(p: Streams.Player, env: Streams.PlayInputs, demuxed: seq<int>)
    requires Streams.StartStage in Streams.Play(p, env).ran
    ensures Inv(Start(Streams.Play(p, env).player, demuxed))
  {
  }

  lemma ProducerStepKeepsInv(s: State, policy: DrainPolicy)
    requires Inv(s) && ProducerStep(s, policy).Some?
    ensures Inv(ProducerStep(s, policy).value)
  {
    if s.producer == Reading && s.pos < |s.demuxed| {
      ReadKeepsConsumerInv(s, policy, VideoRole);
      ReadKeepsConsumerInv(s, policy, AudioRole);
    }
  }

  /** Reading one packet extends exactly the routed stream of the consumer it was queued for. */
  lemma ReadKeepsConsumerInv(s: State, policy: DrainPolicy, role: Role)
    requires Inv(s) && s.producer == Reading && s.pos < |s.demuxed|
    requires ProducerStep(s, policy).Some?
    ensures ConsumerInv(ProducerStep(s, policy).value, role)
  {
    var s' := ProducerStep(s, policy).value;
    var p := Packet(s.pos, s.demuxed[s.pos]);
    var c := ConsumerOf(s, role);
    assert ConsumerOf(s', role) == c;
    if Route(p.stream, s.videoIndex, s.audioIndex) == TargetOf(role) {
      assert QueueOf(s', role).elems == QueueOf(s, role).elems + [p];
      assert Taken(c) + (QueueOf(s, role).elems + [p]) == (Taken(c) + QueueOf(s, role).elems) + [p];
    } else {
      assert QueueOf(s', role) == QueueOf(s, role);
    }
  }

  lemma AttachStepKeepsInv(s: State, role: Role, ok: bool)
    requires Inv(s) && AttachStep(s, role, ok).Some?
    ensures Inv(AttachStep(s, role, ok).value)
  {
  }

  lemma PopStepKeepsInv(s: State, role: Role)
    requires Inv(s) && PopStep(s, role).Some?
    ensures Inv(PopStep(s, role).value)
  {
    var s' := PopStep(s, role).value;
    var c := ConsumerOf(s, role);
    assert QueueRole(c.index, s.videoIndex, s.audioIndex) == Some(role);
    var q := QueueOf(s, role);
    var c' := ConsumerOf(s', role);
    if !Q.IsEmpty(q) {
      assert Taken(c') == Taken(c) + [q.elems[0]];
      assert Taken(c') + QueueOf(s', role).elems == Taken(c) + q.elems;
    }
  }

  lemma ProcessStepKeepsInv(s: State, role: Role, sendResult: int, receiveResult: int)
    requires Inv(s) && ProcessStep(s, role, sendResult, receiveResult).Some?
    ensures Inv(ProcessStep(s, role, sendResult, receiveResult).value)
  {
    var s' := ProcessStep(s, role, sendResult, receiveResult).value;
    var c := ConsumerOf(s, role);
    var c' := ConsumerOf(s', role);
    assert Packets(c'.log) == Packets(c.log) + [c.phase.packet];
    assert Taken(c') == Taken(c);
  }

  /** Every step of every thread, in any interleaving and under either drain policy, keeps the invariant. */
  lemma NextKeepsInv(s: State, act: Action, policy: DrainPolicy)
    requires Inv(s) && Next(s, act, policy).Some?
    ensures Inv(Next(s, act, policy).value)
  {
    match act
    case Produce => ProducerStepKeepsInv(s, policy);
    case Attach(role, ok) => AttachStepKeepsInv(s, role, ok);
    case Pop(role) => PopStepKeepsInv(s, role);
    case Process(role, send, receive) => ProcessStepKeepsInv(s, role, send, receive);
  }

  /**
   produce reaches player_release at most once, and only from the drain loop
   after it has unblocked both queues and seen both of them empty. Once
   released it stays released.
   */
  lemma ReleaseOnceAfterDrain(s: State, act: Action, policy: DrainPolicy)
    requires Inv(s) && Next(s, act, policy).Some?
    ensures Next(s, act, policy).value.releases <= 1
    ensures s.producer == Released ==> Next(s, act, policy).value.producer == Released
    ensures Next(s, act, policy).value.releases != s.releases ==>
              && act == Produce
              && s.producer == Draining
              && Q.IsEmpty(s.video) && Q.IsEmpty(s.audio)
              && !s.video.isBlock && !s.audio.isBlock
              && Next(s, act, policy).value.producer == Released
  {
    NextKeepsInv(s, act, policy);
  }

  /** While reading, the queues block, so a push either waits or stores the packet: produce never drops one. */
  lemma ReadingNeverDrops(s: State, policy: DrainPolicy)
    requires Inv(s) && s.producer == Reading && s.pos < |s.demuxed|
    requires ProducerStep(s, policy).Some?
    ensures var s' := ProducerStep(s, policy).value;
            var p := Packet(s.pos, s.demuxed[s.pos]);
            && s'.pos == s.pos + 1
            && (Route(p.stream, s.videoIndex, s.audioIndex) == ToVideo ==> s'.video.elems == s.video.elems + [p] && s'.audio == s.audio)
            && (Route(p.stream, s.videoIndex, s.audioIndex) == ToAudio ==> s'.audio.elems == s.audio.elems + [p] && s'.video == s.video)
            && (Route(p.stream, s.videoIndex, s.audioIndex) == Nowhere ==> s'.video == s.video && s'.audio == s.audio)
  {
  }

  /**
   A consumer leaves its loop only on a NULL pop, which happens only once its
   queue is empty and unblocked, so only after produce has finished reading.
   A waiting consumer whose queue holds packets takes the head one.
   */
  lemma ConsumerExitsOnlyOnNull(s: State, role: Role)
    requires Inv(s) && ConsumerOf(s, role).phase.Waiting?
    ensures PopStep(s, role).Some? && ConsumerOf(PopStep(s, role).value, role).phase.Exited? ==>
              && Q.IsEmpty(QueueOf(s, role)) && !QueueOf(s, role).isBlock
              && s.producer != Reading
    ensures !Q.IsEmpty(QueueOf(s, role)) ==>
              && PopStep(s, role).Some?
              && ConsumerOf(PopStep(s, role).value, role).phase == Holding(QueueOf(s, role).elems[0])
    ensures s.producer != Reading ==> PopStep(s, role).Some?
  {
    assert QueueRole(ConsumerOf(s, role).index, s.videoIndex, s.audioIndex) == Some(role);
  }

  /** The packets routed to one stream have increasing handles, each the read that produced it. */
  lemma {:induction false} RoutedFacts(demuxed: seq<int>, n: nat, videoIndex: int, audioIndex: int, t: Target)
    requires n <= |demuxed|
    ensures RoutedWellFormed(demuxed, n, Routed(demuxed, n, videoIndex, audioIndex, t), videoIndex, audioIndex, t)
    decreases n
  {
    if n > 0 {
      RoutedFacts(demuxed, n - 1, videoIndex, audioIndex, t);
      var prev := Routed(demuxed, n - 1, videoIndex, audioIndex, t);
      var r := Routed(demuxed, n, videoIndex, audioIndex, t);
      if Route(demuxed[n - 1], videoIndex, audioIndex) == t {
        assert r == prev + [Packet(n - 1, demuxed[n - 1])];
        forall i | 0 <= i < |r|
          ensures r[i].handle < n && r[i].stream == demuxed[r[i].handle]
          ensures Route(r[i].stream, videoIndex, audioIndex) == t
        {
          if i < |prev| {
            assert r[i] == prev[i];
          }
        }
        forall i, j | 0 <= i < j < |r| ensures r[i].handle < r[j].handle {
          assert r[i] == prev[i];
          if j < |prev| {
            assert r[j] == prev[j];
          }
        }
      } else {
        assert r == prev;
      }
    }
  }

  /** Packets `r` taken from the first `n` reads: each its read's stream routed to `t`, in increasing read order. */
  ghost predicate RoutedWellFormed(demuxed: seq<int>, n: nat, r: seq<Packet>, videoIndex: int, audioIndex: int, t: Target)
    requires n <= |demuxed|
  {
    && (forall i :: 0 <= i < |r| ==> r[i].handle < n)
    && (forall i :: 0 <= i < |r| ==> r[i].stream == demuxed[r[i].handle] && Route(r[i].stream, videoIndex, audioIndex) == t)
    && (forall i, j :: 0 <= i < j < |r| ==> r[i].handle < r[j].handle)
  }

  /**
   Every packet a consumer finishes is freed once: each consumer finishes
   packets in read order with no handle twice, and no packet is finished by
   both consumers.
   */
  lemma NoPacketProcessedTwice(s: State)
    requires Inv(s)
    ensures forall i, j :: 0 <= i < j < |s.videoConsumer.log| ==>
              s.videoConsumer.log[i].packet.handle < s.videoConsumer.log[j].packet.handle
    ensures forall i, j :: 0 <= i < j < |s.audioConsumer.log| ==>
              s.audioConsumer.log[i].packet.handle < s.audioConsumer.log[j].packet.handle
    ensures forall i, j :: 0 <= i < |s.videoConsumer.log| && 0 <= j < |s.audioConsumer.log| ==>
              s.videoConsumer.log[i].packet != s.audioConsumer.log[j].packet
  {
    var vr := Routed(s.demuxed, s.pos, s.videoIndex, s.audioIndex, ToVideo);
    var ar := Routed(s.demuxed, s.pos, s.videoIndex, s.audioIndex, ToAudio);
    RoutedFacts(s.demuxed, s.pos, s.videoIndex, s.audioIndex, ToVideo);
    RoutedFacts(s.demuxed, s.pos, s.videoIndex, s.audioIndex, ToAudio);
    var vlog := s.videoConsumer.log;
    var alog := s.audioConsumer.log;
    assert forall i :: 0 <= i < |vlog| ==> vlog[i].packet == vr[i] by {
      forall i | 0 <= i < |vlog| ensures vlog[i].packet == vr[i] {
        assert vr == Packets(vlog) + ((if s.videoConsumer.phase.Holding? then [s.videoConsumer.phase.packet] else []) + s.video.elems);
      }
    }
    assert forall i :: 0 <= i < |alog| ==> alog[i].packet == ar[i] by {
      forall i | 0 <= i < |alog| ensures alog[i].packet == ar[i] {
        assert ar == Packets(alog) + ((if s.audioConsumer.phase.Holding? then [s.audioConsumer.phase.packet] else []) + s.audio.elems);
      }
    }
    assert |vlog| <= |vr| && |alog| <= |ar|;
    forall i, j | 0 <= i < j < |vlog|
      ensures vlog[i].packet.handle < vlog[j].packet.handle
    {
      assert vr[i].handle < vr[j].handle;
    }
    forall i, j | 0 <= i < j < |alog|
      ensures alog[i].packet.handle < alog[j].packet.handle
    {
      assert ar[i].handle < ar[j].handle;
    }
    forall i, j | 0 <= i < |vlog| && 0 <= j < |alog|
      ensures vlog[i].packet != alog[j].packet
    {
      assert Route(vr[i].stream, s.videoIndex, s.audioIndex) == ToVideo;
      assert Route(ar[j].stream, s.videoIndex, s.audioIndex) == ToAudio;
    }
  }

  /**
   A consumer that exited its loop has finished exactly the packets read for
   its stream, in read order: none lost, none reordered.
   */
  lemma ExitedConsumerFinishedItsStream(s: State, role: Role)
    requires Inv(s) && ConsumerOf(s, role).phase.Exited?
    ensures Packets(ConsumerOf(s, role).log) == Routed(s.demuxed, |s.demuxed|, s.videoIndex, s.audioIndex, TargetOf(role))
    ensures forall i :: 0 <= i < |ConsumerOf(s, role).log| && ConsumerOf(s, role).log[i].outcome.Played? ==>
              ConsumerOf(s, role).log[i].outcome.sink == Some(SinkOf(role))
  {
    assert Taken(ConsumerOf(s, role)) + [] == Packets(ConsumerOf(s, role).log);
  }

  /** After a release no thread may touch the player; under the join rule, a release leaves every thread ended. */
  ghost predicate ReleasedAlone(s: State) {
    s.producer == Released ==> Ended(s.videoConsumer) && Ended(s.audioConsumer)
  }

  /**
   The corrected drain rule: when produce also waits for both consumer
   threads to end before player_release, every interleaving keeps the
   release last, and after it no thread can take another step.
   */
  lemma JoinedReleaseIsLast(s: State, act: Action)
    requires Inv(s) && ReleasedAlone(s)
    ensures Next(s, act, JoinConsumers).Some? ==> ReleasedAlone(Next(s, act, JoinConsumers).value)
    ensures s.producer == Released ==> Next(s, act, JoinConsumers).None?
  {
  }

  /** The states of a run with one video packet; see ReleaseWhileDecoding. */
  const RacePlayer: Streams.Player := Streams.Player(0, 1, Some(0), Some(1))
  const Race0: State := Start(RacePlayer, [0])
  const Race1: State := Race0.(videoConsumer := Consumer(0, Waiting, []))
  const Race2: State := Race1.(video := Q.Queue([Packet(0, 0)], true), pos := 1)
  const Race3: State := Race2.(video := Q.Queue([], true), videoConsumer := Consumer(0, Holding(Packet(0, 0)), []))
  const Race4: State := Race3.(video := Q.Queue([], false), audio := Q.Queue([], false), producer := Draining)
  const Race5: State := Race4.(producer := Released, releases := 1)
  const Race6: State := Race5.(videoConsumer := Consumer(0, Waiting, [Processed(Packet(0, 0), Decode.Played(Some(Decode.VideoSink)))]))

  /** The run up to the packet being queued. */
  lemma RaceReadsOnePacket()
    ensures Inv(Race0)
    ensures Next(Race0, Attach(VideoRole, true), PollQueues) == Some(Race1)
    ensures Next(Race1, Produce, PollQueues) == Some(Race2)
  {
    assert Routed([0], 0, 0, 1, ToVideo) == [] && Routed([0], 0, 0, 1, ToAudio) == [];
    assert Q.In(Race1.video, Packet(0, 0)) == Q.PushReturns(Q.Queue([Packet(0, 0)], true));
  }

  /** The run from the pop to the release. */
  lemma RacePopsThenReleases()
    ensures Next(Race2, Pop(VideoRole), PollQueues) == Some(Race3)
    ensures Next(Race3, Produce, PollQueues) == Some(Race4)
    ensures Next(Race4, Produce, PollQueues) == Some(Race5)
  {
    assert Q.Out(Race2.video) == Q.PopReturns(Q.Queue([], true), Some(Packet(0, 0)));
  }

  /**
   The drain rule as written: one video packet is read and queued, the video
   consumer pops it, produce finishes reading, sees both queues empty and
   releases the player while the video consumer still holds the packet it is
   about to decode and the audio consumer has not even attached. Both threads
   can still step afterwards: the video consumer decodes the packet and then
   calls `queue_out` on the destroyed queue. Under the join rule the release
   step cannot run.
   */
  lemma ReleaseWhileDecoding()
    ensures Inv(Race0)
    ensures Next(Race0, Attach(VideoRole, true), PollQueues) == Some(Race1)
    ensures Next(Race1, Produce, PollQueues) == Some(Race2)
    ensures Next(Race2, Pop(VideoRole), PollQueues) == Some(Race3)
    ensures Next(Race3, Produce, PollQueues) == Some(Race4)
    ensures Next(Race4, Produce, PollQueues) == Some(Race5)
    ensures Race5.producer == Released && !ReleasedAlone(Race5)
    ensures Next(Race5, Process(VideoRole, 0, 0), PollQueues).Some?
    ensures Next(Race5, Attach(AudioRole, true), PollQueues).Some?
    ensures Next(Race5, Process(VideoRole, 0, 0), PollQueues) == Some(Race6)
    ensures Next(Race6, Pop(VideoRole), PollQueues).Some?
    ensures Next(Race4, Produce, JoinConsumers).None?
  {
    RaceReadsOnePacket();
    RacePopsThenReleases();
    RaceUsesDestroyedQueue();
  }

  /** After the release, the video consumer decodes its packet and calls `queue_out` on the destroyed queue. */
  lemma RaceUsesDestroyedQueue()
    ensures Next(Race5, Process(VideoRole, 0, 0), PollQueues) == Some(Race6)
    ensures Next(Race6, Pop(VideoRole), PollQueues).Some?
  {
    assert Decode.Handle(0, 0, 0, 0, 1) == Decode.Played(Some(Decode.VideoSink));
  }
}

=== FILE: streams.dfy ===
/**
 Stream selection and the initialisation chain of player.cpp.

 Every FFmpeg call is replaced by its result, given as an input: the media
 types of the container's streams (what `codecpar->codec_type` reports for
 each index), and the integer codes `avformat_open_input`,
 `avformat_find_stream_info` and `avcodec_open2` return. A codec context is an
 opaque handle.
 */
module Streams {
  import opened Wrappers

  /** AVMediaType, in the order FFmpeg declares it. */
  datatype MediaType = Unknown | Video | Audio | Data | Subtitle | Attachment

  /** SUCCESS_CODE and FAIL_CODE. */
  const SuccessCode: int := 1
  const FailCode: int := -1

  /** An opaque AVCodecContext handle. */
  type CodecContext = nat

  /**
   The Player fields this model tracks: the two stream indices and the two
   codec contexts that `codec_init` records. The indices start as whatever
   `player_init` left in the freshly malloc'd struct.
   */
  datatype Player = Player(
    videoStreamIndex: int,
    audioStreamIndex: int,
    videoCodec: Option<CodecContext>,
    audioCodec: Option<CodecContext>)

  /**
   find_stream_index, as the loop from `i` on: the first index at or after
   `i` whose stream has type `t`, or -1.
   */
  function FindFrom(streams: seq<MediaType>, t: MediaType, i: nat): (r: int)
    requires i <= |streams|
    ensures r == -1 <==> forall j :: i <= j < |streams| ==> streams[j] != t
    ensures r != -1 ==> i <= r < |streams| && streams[r] == t
    ensures r != -1 ==> forall j :: i <= j < r ==> streams[j] != t
    decreases |streams| - i
  {
    if i == |streams| then -1
    else if streams[i] == t then i
    else FindFrom(streams, t, i + 1)
  }

  /** find_stream_index: the smallest index of a stream of type `t`, or -1 when there is none. */
  function FindStreamIndex(streams: seq<MediaType>, t: MediaType): (r: int)
    ensures r == -1 <==> t !in streams
    ensures r != -1 ==> 0 <= r < |streams| && streams[r] == t && t !in streams[..r]
  {
    var r := FindFrom(streams, t, 0);
    assert r != -1 ==> streams[r] == t;
    assert r == -1 ==> forall j :: 0 <= j < |streams| ==> streams[j] != t;
    r
  }

  /**
   The stream selection loop of playVideo and playAudio: the loop never
   breaks, so it keeps the LAST index of a stream of type `t`, or -1. It
   agrees with find_stream_index exactly when at most one stream has that type.
   */
  method LegacyStreamIndex(streams: seq<MediaType>, t: MediaType) returns (index: int)
    ensures index == -1 <==> t !in streams
    ensures index != -1 ==> 0 <= index < |streams| && streams[index] == t && t !in streams[index + 1..]
    ensures index != -1 ==> FindStreamIndex(streams, t) <= index
    ensures index == FindStreamIndex(streams, t) <==> multiset(streams)[t] <= 1
  {
    index := -1;
    var i := 0;
    while i < |streams|
      invariant 0 <= i <= |streams|
      invariant index == -1 <==> t !in streams[..i]
      invariant index != -1 ==> 0 <= index < i && streams[index] == t && t !in streams[index + 1..i]
    {
      if streams[i] == t {
        index := i;
      }
      i := i + 1;
    }
    assert streams[..i] == streams;
    LastIsFirstIffAtMostOne(streams, t, index);
  }

  /** The last index of `t` is also the first exactly when `t` occurs at most once. */
  lemma LastIsFirstIffAtMostOne(streams: seq<MediaType>, t: MediaType, last: int)
    requires last == -1 <==> t !in streams
    requires last != -1 ==> 0 <= last < |streams| && streams[last] == t && t !in streams[last + 1..]
    ensures last == FindStreamIndex(streams, t) <==> multiset(streams)[t] <= 1
  {
    var first := FindStreamIndex(streams, t);
    if last != -1 {
      assert streams == streams[..first] + [t] + streams[first + 1..];
      assert multiset(streams)[t] == 1 + multiset(streams[first + 1..])[t];
      if last == first {
        assert multiset(streams[first + 1..])[t] == 0;
      } else {
        assert first < last;
        assert streams[first + 1..][last - first - 1] == t;
        assert multiset(streams[first + 1..])[t] >= 1;
      }
    }
  }

  /**
   format_init: open the input, then read its stream information. The first
   negative code is returned unchanged; otherwise SUCCESS_CODE.
   */
  function FormatInit(openResult: int, streamInfoResult: int): (r: int)
    ensures r > 0 <==> openResult >= 0 && streamInfoResult >= 0
    ensures r > 0 ==> r == SuccessCode
    ensures r <= 0 ==> r < 0 && (r == openResult || r == streamInfoResult)
    ensures openResult < 0 ==> r == openResult
  {
    if openResult < 0 then openResult
    else if streamInfoResult < 0 then streamInfoResult
    else SuccessCode
  }

  datatype InitResult = InitResult(code: int, player: Player)

  /**
   codec_init: find the first stream of type `t`, open a decoder on the
   context `ctx`, and on success record the index and context in the video or
   the audio slot chosen by `t`. Any other type succeeds without recording.
   */
  function CodecInit(p: Player, streams: seq<MediaType>, t: MediaType, ctx: CodecContext, openResult: int): (r: InitResult)
    ensures r.code == SuccessCode || r.code == FailCode
    ensures r.code == FailCode <==> t !in streams || openResult < 0
    ensures r.code == FailCode ==> r.player == p
    ensures r.code == SuccessCode && t == Video ==>
              && r.player.videoStreamIndex == FindStreamIndex(streams, Video)
              && r.player.videoCodec == Some(ctx)
              && r.player.audioStreamIndex == p.audioStreamIndex
              && r.player.audioCodec == p.audioCodec
    ensures r.code == SuccessCode && t == Audio ==>
              && r.player.audioStreamIndex == FindStreamIndex(streams, Audio)
              && r.player.audioCodec == Some(ctx)
              && r.player.videoStreamIndex == p.videoStreamIndex
              && r.player.videoCodec == p.videoCodec
    ensures t != Video && t != Audio ==> r.player == p
  {
    var index := FindStreamIndex(streams, t);
    if index == -1 then InitResult(FailCode, p)
    else if openResult < 0 then InitResult(FailCode, p)
    else if t == Video then InitResult(SuccessCode, p.(videoStreamIndex := index, videoCodec := Some(ctx)))
    else if t == Audio then InitResult(SuccessCode, p.(audioStreamIndex := index, audioCodec := Some(ctx)))
    else InitResult(SuccessCode, p)
  }

  /** The initialisation stages of Player.play, in the order they run. */
  datatype Stage = FormatStage | VideoCodecStage | AudioCodecStage | StartStage

  const AllStages: seq<Stage> := [FormatStage, VideoCodecStage, AudioCodecStage, StartStage]

  /** What the library calls of Player.play return, in call order. */
  datatype PlayInputs = PlayInputs(
    openResult: int,
    streamInfoResult: int,
    streams: seq<MediaType>,
    videoContext: CodecContext,
    videoOpenResult: int,
    audioContext: CodecContext,
    audioOpenResult: int)

  /** The stages that ran, and the player they left behind. */
  datatype PlayResult = PlayResult(ran: seq<Stage>, player: Player)

  predicate VideoReady(env: PlayInputs) {
    Video in env.streams && env.videoOpenResult >= 0
  }

  predicate AudioReady(env: PlayInputs) {
    Audio in env.streams && env.audioOpenResult >= 0
  }

  /**
   Player.play: `result` starts at 1 and each stage runs only while every
   earlier stage returned a positive code; play_start runs last.
   */
  function Play(p: Player, env: PlayInputs): (r: PlayResult)
    ensures 1 <= |r.ran| <= |AllStages| && r.ran == AllStages[..|r.ran|]
    ensures VideoCodecStage in r.ran <==> FormatInit(env.openResult, env.streamInfoResult) > 0
    ensures AudioCodecStage in r.ran <==> VideoCodecStage in r.ran && VideoReady(env)
    ensures StartStage in r.ran <==> AudioCodecStage in r.ran && AudioReady(env)
    ensures StartStage in r.ran ==>
              && r.player.videoStreamIndex == FindStreamIndex(env.streams, Video)
              && r.player.audioStreamIndex == FindStreamIndex(env.streams, Audio)
              && r.player.videoCodec == Some(env.videoContext)
              && r.player.audioCodec == Some(env.audioContext)
              && r.player.videoStreamIndex >= 0 && r.player.audioStreamIndex >= 0
              && r.player.videoStreamIndex != r.player.audioStreamIndex
  {
    var format := FormatInit(env.openResult, env.streamInfoResult);
    if format <= 0 then PlayResult([FormatStage], p)
    else
      var video := CodecInit(p, env.streams, Video, env.videoContext, env.videoOpenResult);
      if video.code <= 0 then
        assert AllStages[..2] == [FormatStage, VideoCodecStage];
        PlayResult(AllStages[..2], video.player)
      else
        var audio := CodecInit(video.player, env.streams, Audio, env.audioContext, env.audioOpenResult);
        if audio.code <= 0 then
          assert AllStages[..3] == [FormatStage, VideoCodecStage, AudioCodecStage];
          PlayResult(AllStages[..3], audio.player)
        else PlayResult(AllStages, audio.player)
  }
}

=== FILE: wrappers.dfy ===
/** Option stands in for a nullable C pointer: None is NULL. */
module Wrappers {

  datatype Option<+T> = None | Some(value: T)
}
